=== FILE: README.md ===
# Volunteer hours tracker — a Dafny model of its rules

The app logs volunteer sessions and awards bronze, silver and gold tiers.
The thresholds depend on the volunteer's age group.
This project models the pure rules inside its screens and its session context:

- **Award-tier calculator** (`Awards`, progress screen). It uses the fixed per-group threshold table and sums the session durations. It finds the current tier top-down with inclusive minimums. It also gives the next tier, the hours that tier needs, and the progress percent, clamped at 100. A missing age group counts as adults. An unknown age-group key makes the table lookup throw, and the model returns an `UnknownAgeGroup` error for it.
- **Sign-up** (`Signup`). The form is rejected if a field is empty, then if the passwords differ. The age is read with `parseInt`, and a non-numeric age gives `NaN`. Ages 5–10 map to kids, 11–15 to teens and 16–18 to young adults. Every other age, `NaN` included, maps to adults. The profile stores the computed group; the form's `'youth'` picker value is never used.
- **Session log** (`SessionLog`, volunteer context). It holds the session list and a cached total. `Load`, `Add`, `Delete` and `Update` are modelled as pure transitions on the pair. The invariant is "cached total == sum of durations". It holds after every load that takes a stored list or resets. `Add` always keeps it. `Delete` keeps it when ids are unique, and a concrete duplicate-id state shows the drift otherwise. `Update` keeps it when the update supplies a duration; without one the total becomes `NaN`.
- **Timer screen** (`Timer`, `Recent`). `formatTime` splits seconds and pads each field to two digits, and the model proves the display reads back as the count. Clock-in/clock-out is a two-state machine. A manual entry is rejected unless its end is after its start, and its duration converts milliseconds to hours. Descriptions get defaults. The recent list is a stable sort by date, latest first, cut to five.
- **Profile screen** (`Profile`). This covers the age-group label switch and its agreement with the progress screen's switch. It also covers the average that never divides by zero, the initial, and the `'Volunteer'` / `'Not set'` fallbacks.

Hours are exact `real`s and the timer counts `nat` seconds.
Instants are integer milliseconds, and calendar days are integer day numbers, so later days are larger.
A stored user is a record. A field missing from it is the empty string, or `NaN` for the age. Both are falsy, which is all the screens ask of a missing field.

## Model

| member | source | states |
|---|---|---|
| `Decimal.NatToString` | screens/main/TimerScreen.js:43 | `toString` of a count gives a canonical numeral (no leading zero) that reads back as the count; one digit below 10, at most two below 100 |
| `Decimal.IntToString` | screens/main/ProfileScreen.js:132 | `String(n)` of an integer: non-empty text that starts with a minus sign exactly for negative integers; `ParseIntRoundTrip` shows it reads back as the integer |
| `Decimal.PadStart2` | screens/main/TimerScreen.js:43 | `padStart(2, '0')` prefixes zeros up to length two and keeps longer text whole, never truncating |
| `Decimal.PadStart2Value` | screens/main/TimerScreen.js:43 | padding a numeral with zeros keeps its value |
| `Decimal.ParseInt` | screens/auth/SignupScreen.js:41 | `parseInt(text, 10)` as a computation, without a contract of its own; `ParseNumeral`, `ParseNegative`, `ParseLeadingNumeral`, `NonDigitFirstIsNaN`, `ParseIntRoundTrip`, `SkipsLeadingSpace`, `SeparatorBeforeNumeral` and `NoDigitIsNaN` state what it means |
| `Decimal.ParseLeadingNumeral` | screens/auth/SignupScreen.js:41 | only the leading numeral is read: a numeral followed by nothing or by a non-digit (as in "12.5" or "12 years") parses to the numeral's value |
| `Decimal.SignedLeading` | screens/auth/SignupScreen.js:41 | with no white space or sign in front, a numeral followed by a non-digit reads as the numeral's value |
| `Decimal.DigitPrefixAppend` | screens/auth/SignupScreen.js:41 | the digits `parseInt` reads stop at the first non-digit |
| `Decimal.NonDigitFirstIsNaN` | screens/auth/SignupScreen.js:41 | text starting with a character that is neither white space, a sign nor a digit parses to `NaN`, even when digits follow (as in "a5") |
| `Decimal.SkipsLeadingSpace` | screens/auth/SignupScreen.js:41 | a white-space character in front of the text never changes what `parseInt` gives |
| `Decimal.SeparatorBeforeNumeral` | screens/auth/SignupScreen.js:41 | a line separator U+2028 or paragraph separator U+2029 before a numeral is skipped as white space, so the numeral still parses to its value |
| `Decimal.ParseIntRoundTrip` | screens/auth/SignupScreen.js:41 | `parseInt(…, 10)` reads back every integer's decimal text as that integer |
| `Decimal.ParseNumeral` | screens/auth/SignupScreen.js:41 | `parseInt(…, 10)` of a non-empty numeral is its value |
| `Decimal.ParseNegative` | screens/auth/SignupScreen.js:41 | `parseInt(…, 10)` of a minus sign and a numeral is the negated value |
| `Decimal.NoDigitIsNaN` | screens/auth/SignupScreen.js:41 | text without a digit parses to `NaN` |
| `Sessions.Sum` | contexts/VolunteerContext.js:23 | the `reduce` over durations, without a contract of its own; `TotalHours` (the left fold from 0), `SumAppend` and `SumBounds` state what it means |
| `Sessions.TotalHours` | screens/main/ProgressScreen.js:52-55 | the left-to-right fold from 0 equals the sum of all durations, with no filtering; it is non-negative when every duration is |
| `Sessions.SumAppend` | contexts/VolunteerContext.js:23 | the total of a concatenation is the sum of the totals |
| `Sessions.SumBounds` | screens/main/ProgressScreen.js:52-55 | with non-negative durations the total is non-negative and at least each single duration |
| `Awards.AwardTiers` | screens/main/ProgressScreen.js:18-39 | every group's minimums are positive and strictly increasing, bronze < silver < gold, so no interpolation divisor is zero |
| `Awards.GroupOfKey` | screens/main/ProgressScreen.js:61-74 | a key names a group exactly when it is that group's key |
| `Awards.LabelOfKey` | screens/main/ProgressScreen.js:61-74 | a group's key gets that group's label, and a key that names no group gets the adults label |
| `Awards.KeyRoundTrip` | screens/auth/SignupScreen.js:43-51 | the key stored for a group reads back as that group |
| `Awards.ResolveAgeGroup` | screens/main/ProgressScreen.js:58 | a missing key means adults; a known key means its group; any other key is the lookup error |
| `Awards.Clamp100` | screens/main/ProgressScreen.js:108 | `Math.min(x, 100)` is at most 100 and at most x, and is one of them |
| `Awards.Interpolate` | screens/main/ProgressScreen.js:91-100 | the percent times the width of the span equals 100 times the distance covered; below the top it is under 100, above the floor it is non-negative |
| `Awards.Evaluate` | screens/main/ProgressScreen.js:77-108 | the current tier is the highest whose inclusive minimum is met; gold gives `completed`, the gold minimum and 100; otherwise the next tier is the one directly above, its minimum is still ahead, and progress interpolates between the two floors; progress is 100 exactly at gold and lies in [0, 100] for a non-negative total |
| `Awards.ComputeStatus` | screens/main/ProgressScreen.js:50-112 | fails exactly on an unknown age-group key; otherwise reports the sum of all durations, the resolved group and its label, the highest tier met under that group's table, and the next tier, next-tier hours and progress exactly as `Evaluate` fixes them for that table and sum |
| `Awards.HighestQualifyingUnique` | screens/main/ProgressScreen.js:82-101 | the top-down chain picks the one and only tier that is met while no higher tier is met |
| `Awards.TierMonotone` | screens/main/ProgressScreen.js:82-101 | for a fixed group, more hours never give a lower tier rank |
| `Awards.ProgressMonotoneWithinTier` | screens/main/ProgressScreen.js:91-108 | within one tier, more hours never give less progress |
| `Awards.ZeroHours` | screens/main/ProgressScreen.js:77-80 | with 0 hours every group has no tier, bronze next at its minimum, and progress 0 |
| `Awards.InclusiveMinimums` | screens/main/ProgressScreen.js:82-96 | exactly the bronze or silver minimum reaches that tier; exactly the gold minimum gives gold, completed, 100 |
| `Awards.JustBelowGold` | screens/main/ProgressScreen.js:87-92 | for every age group, one hour short of the gold minimum is silver, with gold next and progress strictly between 0 and 100 |
| `Awards.KidsSixtyHours` | screens/main/ProgressScreen.js:87-92 | 60 hours for kids is silver, gold next at 75, 40% of the way |
| `Awards.MissingAgeGroupIsAdults` | screens/main/ProgressScreen.js:58-74 | a missing age group uses the adults table and the adults label |
| `Signup.ClassifyAge` | screens/auth/SignupScreen.js:40-51 | a bounded group is chosen exactly when the parsed age lies in its range; adults exactly when the age is `NaN` or in no range |
| `Signup.RangesDisjoint` | screens/auth/SignupScreen.js:43-48 | the three bounded ranges do not overlap |
| `Signup.ClassifyByRange` | screens/auth/SignupScreen.js:43-51 | in terms of integers alone: an age in a range gets that group; ages under 5 or over 18 get adults |
| `Signup.NonNumericAgeIsAdults` | screens/auth/SignupScreen.js:41-51 | age text without digits is classified as adults |
| `Signup.HandleSignup` | screens/auth/SignupScreen.js:27-64 | rejected for an empty field first, then for differing passwords, and registered otherwise; the registration carries the typed fields, the parsed age and the group computed from it |
| `Signup.NewUser` | contexts/AuthContext.js:59-62 | the stored user keeps the profile fields and a group key that reads back as the profile's group |
| `Signup.SignedUpUserHasKnownGroup` | screens/auth/SignupScreen.js:54-60 | a signed-up user's group always resolves in the award table, to the group their age gave |
| `SessionLog.Empty` | contexts/VolunteerContext.js:8-9 | the initial state (no sessions, total 0) satisfies the invariant |
| `SessionLog.Load` | contexts/VolunteerContext.js:13-37 | signed out resets to empty; signed in with a stored list takes it with its sum as total; signed in with nothing stored leaves the state as it was |
| `SessionLog.LoadConsistent` | contexts/VolunteerContext.js:19-29 | loading keeps the invariant and establishes it whenever it resets or takes a list |
| `SessionLog.Add` | contexts/VolunteerContext.js:51-63 | appends the session at the end, leaves earlier sessions as they were, adds its duration to the total and returns true |
| `SessionLog.AddConsistent` | contexts/VolunteerContext.js:52-57 | adding keeps the cached total equal to the sum |
| `SessionLog.AddKeepsUniqueIds` | contexts/VolunteerContext.js:52 | adding under a fresh id keeps ids unique |
| `SessionLog.FindIndex` | contexts/VolunteerContext.js:85-86 | gives the first position holding the id, or nothing when no session has it |
| `SessionLog.RemoveId` | contexts/VolunteerContext.js:70 | the filter keeps no session with the id |
| `SessionLog.RemoveIdAppend` | contexts/VolunteerContext.js:70 | the filter works piecewise on a concatenation, so kept sessions stay in order and duplicates under other ids are kept |
| `SessionLog.RemoveAbsentId` | contexts/VolunteerContext.js:70 | filtering an id that no session has leaves the list unchanged |
| `SessionLog.RemoveIdMembers` | contexts/VolunteerContext.js:70 | the filter keeps exactly the sessions under other ids |
| `SessionLog.Delete` | contexts/VolunteerContext.js:66-81 | an absent id returns false and changes nothing; otherwise every session with the id is removed but only the first match's duration is subtracted |
| `SessionLog.RemoveUniqueId` | contexts/VolunteerContext.js:67-70 | with unique ids the filter removes exactly the found position |
| `SessionLog.DeleteConsistent` | contexts/VolunteerContext.js:67-75 | with unique ids, delete removes one session and keeps the cached total equal to the sum |
| `SessionLog.DeleteDuplicateIdDrifts` | contexts/VolunteerContext.js:67-75 | for any session stored twice under one id with the correct total, delete removes both but subtracts one duration, so the invariant survives exactly when that duration is 0 |
| `SessionLog.Merge` | contexts/VolunteerContext.js:90-93 | each of id, date, start, end, duration and description is the update's value when supplied and the old one otherwise; an empty update changes nothing |
| `SessionLog.Update` | contexts/VolunteerContext.js:84-105 | an absent id returns false and changes nothing; otherwise only the first match is rewritten; length and every other entry stay the same; the total moves by new minus old duration, or becomes `NaN` when no duration is supplied |
| `SessionLog.UpdateConsistent` | contexts/VolunteerContext.js:97-99 | an update that supplies a duration keeps the cached total equal to the sum |
| `SessionLog.UpdateWithoutDurationIsNaN` | contexts/VolunteerContext.js:98 | an update without a duration turns the total into `NaN` |
| `SessionLog.ProgressTotalMatchesCache` | screens/main/ProgressScreen.js:52-55 | on a consistent log the progress screen's own total equals the context's cached total |
| `Timer.SplitSeconds` | screens/main/TimerScreen.js:39-42 | hours·3600 + minutes·60 + seconds is the count, with minutes and seconds below 60 |
| `Timer.SplitSecondsUnique` | screens/main/TimerScreen.js:39-42 | no other split has minutes and seconds below 60 |
| `Timer.FormatTime` | screens/main/TimerScreen.js:39-44 | the display has colons in the last-but-two and last-but-five places, is exactly 8 characters long exactly when the hours are below 100, a longer display has no leading zero, and the three fields are the padded hours, minutes and seconds of the split |
| `Timer.Display` | screens/main/TimerScreen.js:43 | the padded fields joined by colons have the `H…H:MM:SS` shape, 8 characters long exactly when the hours are below 100, with no leading zero when longer; the hours, minutes and seconds fields are the padded fields of the split |
| `Timer.Field` | screens/main/TimerScreen.js:43 | one padded field is a numeral of at least two digits that reads back as the field, exactly two digits below 100, and with no leading zero when longer, since padding stops at two |
| `Timer.Join` | screens/main/TimerScreen.js:43 | joining with colons puts h, m and s each in its own place with the colons between them, at the last-but-two and last-but-five places, and the text reads back as the fields |
| `Timer.JoinReadsBack` | screens/main/TimerScreen.js:43 | numerals joined by colons read back as hours·3600 + minutes·60 + seconds |
| `Timer.DisplayReadsBack` | screens/main/TimerScreen.js:43 | the display of any split with minutes and seconds below 60 reads back as the seconds it denotes |
| `Timer.FormatTimeRoundTrip` | screens/main/TimerScreen.js:39-44 | the display reads back as the number of seconds it shows |
| `Timer.ClockIn` | screens/main/TimerScreen.js:47-55 | ignored while running (the button is disabled); otherwise starts running from now with a zero count |
| `Timer.Tick` | screens/main/TimerScreen.js:52-54 | while running, each tick adds one second; while stopped, nothing ticks |
| `Timer.ClockOut` | screens/main/TimerScreen.js:58-86 | ignored while stopped; otherwise records a "Volunteer Session" whose duration in hours times 3600 is the elapsed seconds, appends it to the log, and stops the clock with its count reset |
| `Timer.RunCounts` | screens/main/TimerScreen.js:47-55 | after clocking in, n ticks show n seconds from the start instant, and a second Clock In changes nothing |
| `Timer.ClockSession` | screens/main/TimerScreen.js:47-80 | clock in, n seconds, clock out: records n/3600 hours, appends one session, keeps the log consistent, shows `00:00:00`, and a second Clock Out records nothing |
| `Timer.FormatOneMinute` | screens/main/TimerScreen.js:39-44 | 60 seconds display as `00:01:00`: the seconds roll over into the minutes field |
| `Timer.FormatZero` | screens/main/TimerScreen.js:39-44 | a zero count displays as `00:00:00` |
| `Timer.ManualEntry` | screens/main/TimerScreen.js:98-117 | rejected exactly when the end is not after the start; otherwise the duration is positive and times 3,600,000 gives the milliseconds between them, and an empty description becomes "Manual Entry" |
| `Timer.SaveManualEntry` | screens/main/TimerScreen.js:98-128 | the entry is exactly `ManualEntry` of the form's fields; a rejected entry leaves the log alone, and an accepted one is appended |
| `Timer.SaveManualEntryConsistent` | screens/main/TimerScreen.js:106-120 | saving keeps the log consistent, and an accepted entry strictly raises the total |
| `Recent.Insert` | screens/main/TimerScreen.js:162 | inserting into a latest-first list keeps it latest-first and adds exactly that session |
| `Recent.SortByDateDesc` | screens/main/TimerScreen.js:161-162 | the sorted copy is latest-first and holds the same sessions as the log |
| `Recent.SortStable` | screens/main/TimerScreen.js:162 | sessions of the same day keep their relative order |
| `Recent.RecentSessions` | screens/main/TimerScreen.js:161-163 | the list has min(5, n) sessions, is latest-first, and every entry is drawn from the log |
| `Recent.RecentKeepsFirstOfDay` | screens/main/TimerScreen.js:161-163 | within every day, the list's sessions are the first-logged sessions of that day, in log order (a prefix of that day's sessions) |
| `Recent.OnDayPrefix` | screens/main/TimerScreen.js:163 | `.slice(0, n)` keeps, for every day, a prefix of that day's sessions |
| `Recent.RecentAreLatest` | screens/main/TimerScreen.js:161-163 | no session left off the list is later than one on it |
| `Recent.LeftOutIsBehind` | screens/main/TimerScreen.js:163 | a session that `.slice(0, n)` drops sits at position `n` or later |
| `Profile.AgeGroupText` | screens/main/ProfileScreen.js:19-30 | `getAgeGroupText` as a computation, without a contract of its own; `AgeGroupTextAgrees` states what it means |
| `Profile.AgeGroupTextAgrees` | screens/main/ProfileScreen.js:19-30 | the profile label switch agrees with the progress screen's for every key, and gives a group's key that group's label |
| `Profile.UpperCase` | screens/main/ProfileScreen.js:62 | `toUpperCase` of one character: a lower-case ASCII letter becomes its capital, and every other character is kept |
| `Profile.Initial` | screens/main/ProfileScreen.js:62 | one character: the upper-cased first character of the name, or "V" with no name |
| `Profile.OrElse` | screens/main/ProfileScreen.js:102 | a non-empty text is shown as is and an empty one gets the fallback |
| `Profile.AgeRow` | screens/main/ProfileScreen.js:132 | a zero or `NaN` age shows "Not set"; any other age shows exactly its decimal text, which parses back to it |
| `Profile.AverageHours` | screens/main/ProfileScreen.js:51-54 | 0 with no sessions, otherwise a value that times the count gives the total; never a division by zero |
| `Profile.View` | screens/main/ProfileScreen.js:56-132 | the header initial, the count, the cached total and the never-dividing average are shown for any user; no user shows "V", "Volunteer" twice and "Not set" in every row; a signed-in user's name falls back to "Volunteer" in the header, each empty row falls back to "Not set", and the age row is `AgeRow` of the age; a user with an age group shows the same label as the progress screen, and one without shows "Volunteer" |
| `Profile.AverageOfConsistentLog` | screens/main/ProfileScreen.js:51-54 | on a consistent log of non-negative sessions the average times the count is the sum, and the average lies between 0 and the total |
| `Profile.SignedUpProfile` | screens/main/ProfileScreen.js:65-67 | a signed-up user's profile shows the typed name, email and phone, and the label of the group their age gave |

## Left out

- Storage (`AsyncStorage` reads and writes, JSON encoding, the `try`/`catch` logging) is left out. It is I/O. `Load` takes what storage returned as a parameter, and saving after each change is not modelled.
- The mock `login`, `signUp` and `logout` only write a user to storage. Only the shape of the stored user is modelled (`Signup.NewUser`).
- The login screen, the navigators and the app shell are left out. They are UI wiring.
- React state batching, effects and stale closures are left out. Each context operation is a step from the latest state.
- The `setInterval` timer is left out. It is a clock, and each firing is one `Timer.Tick`.
- `Date.now()`, `new Date()` and `date-fns` formatting are foreign calls. Session ids, the current instant and the calendar day of an instant are parameters. The `HH:mm:ss` text of start and end times is kept as the instant itself.
- Sorting by `new Date(b.date) - new Date(a.date)` is modelled as ordering by an integer day. Unparsable dates, whose comparator gives `NaN`, are not modelled.
- Floating point is not modelled: hours are exact reals. `toFixed` rounding and the string-minus-number text in the bronze "hours to qualify" message are presentation only.
- `Decimal.ParseInt` does not model the precision loss of JavaScript numbers for numerals longer than 15 digits.
- `Profile.Initial` upper-cases ASCII letters only. It does not model full Unicode case mapping, which can turn one character into two.
- `Profile.Initial` takes the first Unicode character of the name. JavaScript's `name[0]` takes the first UTF-16 code unit, and for a name that starts outside the Basic Multilingual Plane (an emoji, say) that is a lone surrogate. The model has no UTF-16 code units.
- The `max` entries of the threshold table are not modelled. The calculator never reads them.
- `Timer.ClockOut` and `Timer.ClockIn` model the disabled buttons as ignored presses. The screen never calls the handlers in those states.
- Styles, icons, tier colours, the alert dialogs and the picker's platform branches are presentation only.

=== FILE: awards.dfy ===
/** The award-tier calculator of the progress screen: per-age-group hour
    thresholds, the current tier, the next tier and the progress towards it. */
module Awards {
  import opened Wrappers
  import opened Sessions

  datatype AgeGroup = Kids | Teens | YoungAdults | Adults

  /** Award level, ranked `NoTier < Bronze < Silver < Gold`. */
  datatype Tier = NoTier | Bronze | Silver | Gold

  /** The tier to aim for next, or `Completed` once gold is reached. */
  datatype NextTier = Toward(tier: Tier) | Completed

  /** Minimum cumulative hours for each tier of one age group. */
  datatype Thresholds = Thresholds(bronze: real, silver: real, gold: real)

  /** Reading the threshold table under a key it does not have yields
      `undefined`, and reading `.bronze` of that throws. */
  datatype Error = UnknownAgeGroup(key: string)

  /** Where a total stands on one age group's ladder. */
  datatype Standing = Standing(currentTier: Tier, nextTier: NextTier, nextTierHours: real, progress: real)

  /** What the progress screen computes from the session list and the user. */
  datatype TierStatus = TierStatus(
    totalHours: real,
    currentTier: Tier,
    nextTierHours: real,
    nextTier: NextTier,
    progress: real,
    ageGroup: AgeGroup,
    ageGroupLabel: string)

  /** The key under which a group is stored on a user and indexes the table. */
  function Key(g: AgeGroup): string {
    match g
    case Kids => "kids"
    case Teens => "teens"
    case YoungAdults => "young_adults"
    case Adults => "adults"
  }

  /** The group a stored key names, if any. */
  function GroupOfKey(key: string): (r: Option<AgeGroup>)
    ensures r.Some? ==> Key(r.value) == key
    ensures r.None? ==> forall g :: Key(g) != key
  {
    if key == "kids" then Some(Kids)
    else if key == "teens" then Some(Teens)
    else if key == "young_adults" then Some(YoungAdults)
    else if key == "adults" then Some(Adults)
    else None
  }

  /** Every group's key reads back as that group, so keys never collide. */
  lemma KeyRoundTrip(g: AgeGroup)
    ensures GroupOfKey(Key(g)) == Some(g)
  {
  }

  function Label(g: AgeGroup): string {
    match g
    case Kids => "Kids (5-10 years)"
    case Teens => "Teens (11-15 years)"
    case YoungAdults => "Young Adults (16-18 years)"
    case Adults => "Adults (19+ years)"
  }

  /** The progress screen's label switch: the three named keys get their
      own label, every other key the adults label. */
  function LabelOfKey(key: string): (r: string)
    ensures forall g :: Key(g) == key ==> r == Label(g)
    ensures (forall g :: Key(g) != key) ==> r == Label(Adults)
  {
    match GroupOfKey(key)
    case Some(g) => Label(g)
    case None => Label(Adults)
  }

  /** The fixed award table. */
  function AwardTiers(g: AgeGroup): (t: Thresholds)
    ensures WellOrdered(t)
  {
    match g
    case Kids => Thresholds(26.0, 50.0, 75.0)
    case Teens => Thresholds(50.0, 75.0, 100.0)
    case YoungAdults => Thresholds(100.0, 175.0, 250.0)
    case Adults => Thresholds(100.0, 250.0, 500.0)
  }

  /** Positive and strictly increasing minimums: every interpolation divisor
      is positive. */
  predicate WellOrdered(t: Thresholds) {
    0.0 < t.bronze < t.silver < t.gold
  }

  function Rank(t: Tier): nat {
    match t
    case NoTier => 0
    case Bronze => 1
    case Silver => 2
    case Gold => 3
  }

  /** The minimum hours of a tier; `NoTier` has floor 0. */
  function Floor(th: Thresholds, t: Tier): real {
    match t
    case NoTier => 0.0
    case Bronze => th.bronze
    case Silver => th.silver
    case Gold => th.gold
  }

  /** The tier directly above `t`. */
  function Above(t: Tier): (u: Tier)
    requires t != Gold
    ensures Rank(u) == Rank(t) + 1
  {
    match t
    case NoTier => Bronze
    case Bronze => Silver
    case Silver => Gold
  }

  /** A total qualifies for a tier when it meets that tier's minimum
      (inclusive); everybody qualifies for `NoTier`. */
  predicate Qualifies(th: Thresholds, total: real, t: Tier) {
    t == NoTier || total >= Floor(th, t)
  }

  /** The highest tier a total qualifies for. */
  predicate IsHighestQualifying(th: Thresholds, total: real, t: Tier) {
    Qualifies(th, total, t) && forall u :: Rank(u) > Rank(t) ==> !Qualifies(th, total, u)
  }

  /** `Math.min(x, 100)`. */
  function Clamp100(x: real): (r: real)
    ensures r <= 100.0 && r <= x
    ensures r == x || r == 100.0
  {
    if x < 100.0 then x else 100.0
  }

  /** The progress screen's top-down tier evaluation. The current tier is the
      highest whose minimum is met; the next tier is the one directly above,
      with its minimum still ahead; progress interpolates linearly between
      the two floors and is 100 exactly at gold. */
  function Evaluate(th: Thresholds, total: real): (r: Standing)
    requires WellOrdered(th)
    ensures IsHighestQualifying(th, total, r.currentTier)
    ensures r.currentTier == Gold ==>
      r.nextTier == Completed && r.nextTierHours == th.gold && r.progress == 100.0
    ensures r.currentTier != Gold ==>
      && r.nextTier == Toward(Above(r.currentTier))
      && r.nextTierHours == Floor(th, Above(r.currentTier))
      && r.nextTierHours > total
    ensures r.currentTier != Gold ==>
      r.progress * (r.nextTierHours - Floor(th, r.currentTier)) == (total - Floor(th, r.currentTier)) * 100.0
    ensures r.progress == 100.0 <==> r.currentTier == Gold
    ensures total >= 0.0 ==> 0.0 <= r.progress <= 100.0
  {
    if total >= th.gold then
      Standing(Gold, Completed, th.gold, Clamp100(100.0))
    else if total >= th.silver then
      Standing(Silver, Toward(Gold), th.gold, Clamp100(Interpolate(th.silver, th.gold, total)))
    else if total >= th.bronze then
      Standing(Bronze, Toward(Silver), th.silver, Clamp100(Interpolate(th.bronze, th.silver, total)))
    else
      // below bronze the floor is 0, so this is `total / bronze * 100`
      Standing(NoTier, Toward(Bronze), th.bronze, Clamp100(Interpolate(0.0, th.bronze, total)))
  }

  /** `(total - lo) / (hi - lo) * 100`: the share of the way from `lo` to `hi`
      already covered, in percent. */
  function Interpolate(lo: real, hi: real, total: real): (p: real)
    requires lo < hi
    ensures p * (hi - lo) == (total - lo) * 100.0
    ensures total < hi ==> p < 100.0
    ensures lo <= total ==> 0.0 <= p
  {
    var p := (total - lo) / (hi - lo) * 100.0;
    assert p * (hi - lo) == (total - lo) * 100.0;
    if total < hi then
      assert p * (hi - lo) < 100.0 * (hi - lo);
      ProductOrder(p, 100.0, hi - lo);
      p
    else p
  }

  /** The age group the progress screen uses: a missing (falsy) key means
      adults; any other key must be one of the table's. */
  function ResolveAgeGroup(key: string): (r: Result<AgeGroup, Error>)
    ensures key == "" ==> r == Ok(Adults)
    ensures r.Ok? && key != "" ==> Key(r.value) == key
    ensures r.Err? <==> key != "" && forall g :: Key(g) != key
  {
    var k := if key == "" then "adults" else key;
    match GroupOfKey(k)
    case Some(g) => Ok(g)
    case None => Err(UnknownAgeGroup(k))
  }

  /** The whole progress computation for a user's stored age-group key and
      the session list. The total is the plain sum of all durations; an
      unknown key is an error; otherwise the standing is read off the
      group's table, labelled as the group. */
  function ComputeStatus(key: string, sessions: seq<Session>): (r: Result<TierStatus, Error>)
    ensures r.Err? <==> ResolveAgeGroup(key).Err?
    ensures r.Ok? ==>
      && r.value.totalHours == Sum(sessions)
      && ResolveAgeGroup(key) == Ok(r.value.ageGroup)
      && r.value.ageGroupLabel == LabelOfKey(if key == "" then "adults" else key)
      && IsHighestQualifying(AwardTiers(r.value.ageGroup), Sum(sessions), r.value.currentTier)
      && Standing(r.value.currentTier, r.value.nextTier, r.value.nextTierHours, r.value.progress)
         == Evaluate(AwardTiers(r.value.ageGroup), Sum(sessions))
  {
    match ResolveAgeGroup(key)
    case Err(e) => Err(e)
    case Ok(g) =>
      var total := Sum(sessions);
      var s := Evaluate(AwardTiers(g), total);
      Ok(TierStatus(total, s.currentTier, s.nextTierHours, s.nextTier, s.progress, g, Label(g)))
  }

  /** The top-down evaluation picks the one and only highest qualifying tier. */
  lemma HighestQualifyingUnique(th: Thresholds, total: real, t: Tier)
    requires WellOrdered(th)
    ensures IsHighestQualifying(th, total, t) <==> t == Evaluate(th, total).currentTier
  {
  }

  /** More hours never mean a lower tier. */
  lemma TierMonotone(th: Thresholds, lo: real, hi: real)
    requires WellOrdered(th)
    requires lo <= hi
    ensures Rank(Evaluate(th, lo).currentTier) <= Rank(Evaluate(th, hi).currentTier)
  {
  }

  /** Within one tier, more hours never mean less progress. */
  lemma ProgressMonotoneWithinTier(th: Thresholds, lo: real, hi: real)
    requires WellOrdered(th)
    requires lo <= hi
    requires Evaluate(th, lo).currentTier == Evaluate(th, hi).currentTier
    ensures Evaluate(th, lo).progress <= Evaluate(th, hi).progress
  {
    match Evaluate(th, lo).currentTier
    case NoTier => InterpolateMonotone(0.0, th.bronze, lo, hi);
    case Bronze => InterpolateMonotone(th.bronze, th.silver, lo, hi);
    case Silver => InterpolateMonotone(th.silver, th.gold, lo, hi);
    case Gold =>
  }

  lemma InterpolateMonotone(lo: real, hi: real, x: real, y: real)
    requires lo < hi && x <= y
    ensures Interpolate(lo, hi, x) <= Interpolate(lo, hi, y)
  {
    var d := hi - lo;
    assert (x - lo) / d <= (y - lo) / d;
  }

  /** Multiplying by a positive factor keeps the order, and so does dividing it out. */
  lemma ProductOrder(x: real, y: real, w: real)
    requires w > 0.0 && x * w <= y * w
    ensures x <= y
  {
    assert x == (x * w) / w;
    assert y == (y * w) / w;
  }

  /** Nothing logged: no tier, bronze next, no progress, for every group. */
  lemma ZeroHours(g: AgeGroup)
    ensures Evaluate(AwardTiers(g), 0.0) == Standing(NoTier, Toward(Bronze), AwardTiers(g).bronze, 0.0)
  {
  }

  /** The minimums are inclusive: exactly the bronze minimum is bronze, exactly
      the gold minimum is gold with progress 100. */
  lemma InclusiveMinimums(g: AgeGroup)
    ensures Evaluate(AwardTiers(g), AwardTiers(g).bronze).currentTier == Bronze
    ensures Evaluate(AwardTiers(g), AwardTiers(g).silver).currentTier == Silver
    ensures Evaluate(AwardTiers(g), AwardTiers(g).gold) == Standing(Gold, Completed, AwardTiers(g).gold, 100.0)
  {
  }

  /** One hour short of gold is silver, part of the way to gold, for every group. */
  lemma JustBelowGold(g: AgeGroup)
    ensures var r := Evaluate(AwardTiers(g), AwardTiers(g).gold - 1.0);
      r.currentTier == Silver && r.nextTier == Toward(Gold) && 0.0 < r.progress < 100.0
  {
  }

  /** A kid with 60 hours is past the silver minimum, so silver, 40% of the
      way to gold. */
  lemma KidsSixtyHours()
    ensures Evaluate(AwardTiers(Kids), 60.0) == Standing(Silver, Toward(Gold), 75.0, 40.0)
  {
  }

  /** A missing age group is read as adults, for the table and for the label. */
  lemma MissingAgeGroupIsAdults(sessions: seq<Session>)
    ensures ComputeStatus("", sessions).Ok?
    ensures ComputeStatus("", sessions).value.ageGroup == Adults
    ensures ComputeStatus("", sessions).value.ageGroupLabel == Label(Adults)
  {
  }
}

=== FILE: decimal.dfy ===
/** Decimal text as the screens produce and read it: `Number.prototype.toString`
    on integers, `String.prototype.padStart(2, '0')` and `parseInt(text, 10)`. */
module Decimal {
  import opened Wrappers

  predicate IsDigit(c: char) {
    '0' <= c <= '9'
  }

  predicate AllDigits(s: string) {
    forall i :: 0 <= i < |s| ==> IsDigit(s[i])
  }

  function DigitValue(c: char): nat
    requires IsDigit(c)
  {
    (c as int) - ('0' as int)
  }

  function DigitChar(d: nat): (c: char)
    requires d < 10
    ensures IsDigit(c) && DigitValue(c) == d
  {
    (('0' as int) + d) as char
  }

  /** The number a string of decimal digits denotes, most significant digit first. */
  function Value(s: string): nat
    requires AllDigits(s)
  {
    if |s| == 0 then 0 else Value(s[..|s| - 1]) * 10 + DigitValue(s[|s| - 1])
  }

  /** `n.toString()` for a non-negative integer: the canonical decimal
      numeral, which reads back as `n`. */
  function NatToString(n: nat): (s: string)
    ensures AllDigits(s) && |s| >= 1
    ensures Value(s) == n
    ensures |s| > 1 ==> s[0] != '0'
    ensures |s| == 1 <==> n < 10
    ensures |s| <= 2 <==> n < 100
    decreases n
  {
    if n < 10 then [DigitChar(n)]
    else
      var prefix := NatToString(n / 10);
      var s := prefix + [DigitChar(n % 10)];
      assert s[..|s| - 1] == prefix;
      s
  }

  /** `i.toString()` for any integer: a minus sign before the magnitude. */
  function IntToString(i: int): (r: string)
    ensures |r| >= 1 && (r[0] == '-' <==> i < 0)
  {
    if i < 0 then "-" + NatToString(-i) else NatToString(i)
  }

  /** A leading zero does not change the value of a numeral. */
  lemma {:induction false} LeadingZero(s: string)
    requires AllDigits(s)
    ensures AllDigits("0" + s) && Value("0" + s) == Value(s)
  {
    var z := "0" + s;
    if |s| > 0 {
      assert z[..|z| - 1] == "0" + s[..|s| - 1];
      LeadingZero(s[..|s| - 1]);
    }
  }

  /** `s.padStart(2, '0')`: zeros in front up to length two; longer text is
      kept whole, never truncated. */
  function PadStart2(s: string): (r: string)
    ensures |r| == if |s| < 2 then 2 else |s|
    ensures r[|r| - |s|..] == s
    ensures forall i :: 0 <= i < |r| - |s| ==> r[i] == '0'
  {
    if |s| >= 2 then s else if |s| == 1 then "0" + s else "00"
  }

  /** Padding a numeral with zeros keeps it a numeral of the same value. */
  lemma PadStart2Value(s: string)
    requires AllDigits(s)
    ensures AllDigits(PadStart2(s)) && Value(PadStart2(s)) == Value(s)
  {
    if |s| == 1 {
      LeadingZero(s);
    } else if |s| == 0 {
      LeadingZero("");
      LeadingZero("0");
    }
  }

  /** The white space `parseInt` skips before the number: the white space
      and line terminators of sections 12.2 and 12.3 of ECMA-262 (tab, vertical
      tab, form feed, the byte-order mark, every space separator of Unicode
      category Zs, line feed, carriage return, and U+2028 and U+2029). */
  predicate IsSpace(c: char) {
    c == '\t' || c == '\U{B}' || c == '\U{C}' || c == '\U{FEFF}'
    || c == ' ' || c == '\U{A0}' || c == '\U{1680}' || '\U{2000}' <= c <= '\U{200A}'
    || c == '\U{202F}' || c == '\U{205F}' || c == '\U{3000}'
    || c == '\n' || c == '\r' || c == '\U{2028}' || c == '\U{2029}'
  }

  /** `s` without its leading white space. */
  function TrimStart(s: string): (r: string)
    ensures |r| <= |s| && r == s[|s| - |r|..]
    ensures |r| == 0 || !IsSpace(r[0])
    ensures forall i :: 0 <= i < |s| - |r| ==> IsSpace(s[i])
  {
    if |s| > 0 && IsSpace(s[0]) then TrimStart(s[1..]) else s
  }

  /** The longest prefix of `s` made of decimal digits. */
  function DigitPrefix(s: string): (r: string)
    ensures AllDigits(r) && |r| <= |s| && r == s[..|r|]
    ensures |r| == |s| || !IsDigit(s[|r|])
  {
    if |s| > 0 && IsDigit(s[0]) then [s[0]] + DigitPrefix(s[1..]) else []
  }

  /** `parseInt(s, 10)`: skip leading white space, read an optional sign and
      then as many decimal digits as follow; no digit at all gives `NaN`, and
      whatever follows the digits is ignored. */
  function ParseInt(s: string): JsInt {
    ParseSigned(TrimStart(s))
  }

  /** `parseInt` once the white space is gone. */
  function ParseSigned(t: string): JsInt {
    var negative := |t| > 0 && t[0] == '-';
    var body := if |t| > 0 && (t[0] == '-' || t[0] == '+') then t[1..] else t;
    var digits := DigitPrefix(body);
    var magnitude: int := if |digits| == 0 then 0 else Value(digits);
    if |digits| == 0 then NaN
    else if negative then Int(-magnitude)
    else Int(magnitude)
  }

  /** `parseInt` reads back what `toString` writes. */
  lemma ParseIntRoundTrip(i: int)
    ensures ParseInt(IntToString(i)) == Int(i)
  {
    if i < 0 {
      var s := "-" + NatToString(-i);
      assert s[1..] == NatToString(-i);
      ParseNegative(s);
    } else {
      ParseNumeral(NatToString(i));
    }
  }

  /** A non-empty numeral parses to its value. */
  lemma ParseNumeral(ds: string)
    requires AllDigits(ds) && |ds| >= 1
    ensures ParseInt(ds) == Int(Value(ds))
  {
    Untrimmed(ds);
    SignedNumeral(ds);
  }

  /** A minus sign before a non-empty numeral negates its value. */
  lemma ParseNegative(s: string)
    requires |s| >= 2 && s[0] == '-' && AllDigits(s[1..])
    ensures ParseInt(s) == Int(-(Value(s[1..]) as int))
  {
    Untrimmed(s);
    SignedNegative(s);
  }

  /** Text that starts with a digit or a sign has no white space to skip. */
  lemma Untrimmed(s: string)
    requires |s| >= 1 && (IsDigit(s[0]) || s[0] == '-')
    ensures TrimStart(s) == s
  {
    assert !IsSpace(s[0]);
  }

  lemma SignedNumeral(ds: string)
    requires AllDigits(ds) && |ds| >= 1
    ensures ParseSigned(ds) == Int(Value(ds))
  {
    assert ds[0] != '-' && ds[0] != '+';
    DigitPrefixAll(ds);
  }

  lemma SignedNegative(s: string)
    requires |s| >= 2 && s[0] == '-' && AllDigits(s[1..])
    ensures ParseSigned(s) == Int(-(Value(s[1..]) as int))
  {
    DigitPrefixAll(s[1..]);
  }

  /** A numeral is its own longest digit prefix. */
  lemma DigitPrefixAll(s: string)
    requires AllDigits(s)
    ensures DigitPrefix(s) == s
  {
  }

  /** White space before the text does not change what it parses to. */
  lemma SkipsLeadingSpace(c: char, t: string)
    requires IsSpace(c)
    ensures ParseInt([c] + t) == ParseInt(t)
  {
    assert ([c] + t)[1..] == t;
  }

  /** A line or paragraph separator before a numeral is skipped like any
      other white space. */
  lemma SeparatorBeforeNumeral(c: char, ds: string)
    requires c == '\U{2028}' || c == '\U{2029}'
    requires AllDigits(ds) && |ds| >= 1
    ensures ParseInt([c] + ds) == Int(Value(ds))
  {
    SkipsLeadingSpace(c, ds);
    ParseNumeral(ds);
  }

  /** `parseInt` reads the leading numeral and ignores whatever follows a
      non-digit: "12.5" and "12 years" give 12. */
  lemma ParseLeadingNumeral(ds: string, rest: string)
    requires AllDigits(ds) && |ds| >= 1
    requires |rest| == 0 || !IsDigit(rest[0])
    ensures ParseInt(ds + rest) == Int(Value(ds))
  {
    var t := ds + rest;
    assert t[0] == ds[0];
    Untrimmed(t);
    SignedLeading(ds, rest);
  }

  lemma SignedLeading(ds: string, rest: string)
    requires AllDigits(ds) && |ds| >= 1
    requires |rest| == 0 || !IsDigit(rest[0])
    ensures ParseSigned(ds + rest) == Int(Value(ds))
  {
    var t := ds + rest;
    assert t[0] == ds[0] && t[0] != '-' && t[0] != '+';
    DigitPrefixAppend(ds, rest);
  }

  /** A numeral followed by a non-digit is the longest digit prefix. */
  lemma {:induction false} DigitPrefixAppend(ds: string, rest: string)
    requires AllDigits(ds)
    requires |rest| == 0 || !IsDigit(rest[0])
    ensures DigitPrefix(ds + rest) == ds
  {
    if |ds| > 0 {
      assert (ds + rest)[1..] == ds[1..] + rest;
      DigitPrefixAppend(ds[1..], rest);
    } else {
      assert ds + rest == rest;
    }
  }

  /** Text that starts with something other than white space, a sign or a
      digit parses to `NaN`, whatever digits come later: "a5" gives `NaN`. */
  lemma NonDigitFirstIsNaN(c: char, rest: string)
    requires !IsDigit(c) && !IsSpace(c) && c != '-' && c != '+'
    ensures ParseInt([c] + rest) == NaN
  {
    var t := [c] + rest;
    assert t[0] == c;
    assert TrimStart(t) == t;
    assert DigitPrefix(t) == [];
  }

  /** Text without any decimal digit parses to `NaN`. */
  lemma NoDigitIsNaN(s: string)
    requires forall i :: 0 <= i < |s| ==> !IsDigit(s[i])
    ensures ParseInt(s) == NaN
  {
    var t := TrimStart(s);
    var body := if |t| > 0 && (t[0] == '-' || t[0] == '+') then t[1..] else t;
    if |body| > 0 {
      assert body[0] == s[|s| - |body|];
    }
  }
}

=== FILE: profile.dfy ===
/** The profile screen: the header, the statistics and the account rows,
    with the fallbacks shown for a missing user or missing fields. */
module Profile {
  import opened Wrappers
  import opened Decimal
  import opened Users
  import opened Awards
  import opened Sessions
  import opened SessionLog
  import Signup

  /** `getAgeGroupText`: the profile screen's own label switch. */
  function AgeGroupText(key: string): string {
    if key == "kids" then "Kids (5-10 years)"
    else if key == "teens" then "Teens (11-15 years)"
    else if key == "young_adults" then "Young Adults (16-18 years)"
    else "Adults (19+ years)"
  }

  /** The profile screen and the progress screen label every key alike, and
      a group's key gets that group's label. */
  lemma AgeGroupTextAgrees(key: string)
    ensures AgeGroupText(key) == LabelOfKey(key)
    ensures forall g :: key == Key(g) ==> AgeGroupText(key) == Label(g)
  {
  }

  /** `String.prototype.toUpperCase` on one character, for the ASCII letters. */
  function UpperCase(c: char): (u: char)
    ensures 'a' <= c <= 'z' ==> 'A' <= u <= 'Z' && u as int - c as int == 'A' as int - 'a' as int
    ensures !('a' <= c <= 'z') ==> u == c
  {
    if 'a' <= c <= 'z' then (c as int - 'a' as int + 'A' as int) as char else c
  }

  /** The header initial: the first letter of the name, upper-cased, or "V". */
  function Initial(user: Option<User>): (r: string)
    ensures |r| == 1
    ensures user.None? || user.value.name == "" ==> r == "V"
    ensures user.Some? && user.value.name != "" ==> r[0] == UpperCase(user.value.name[0])
  {
    if user.Some? && user.value.name != "" then [UpperCase(user.value.name[0])] else "V"
  }

  /** `text || fallback`. */
  function OrElse(text: string, fallback: string): (r: string)
    ensures text != "" ==> r == text
    ensures text == "" ==> r == fallback
  {
    if text != "" then text else fallback
  }

  /** The age row: a truthy age as its numeral, otherwise "Not set". */
  function AgeRow(age: JsInt): (r: string)
    ensures !age.Truthy() ==> r == "Not set"
    ensures age.Truthy() ==> r == IntToString(age.n) && ParseInt(r) == age
  {
    if age.Truthy() then ParseIntRoundTrip(age.n); IntToString(age.n) else "Not set"
  }

  /** The average shown beside the total: the cached total over the session
      count, or 0 when there are no sessions. */
  function AverageHours(total: Total, count: nat): (r: Total)
    ensures count == 0 ==> r == Hours(0.0)
    ensures count > 0 && total.Hours? ==> r.Hours? && r.h * count as real == total.h
    ensures total.NotANumber? && count > 0 ==> r.NotANumber?
  {
    if count == 0 then Hours(0.0)
    else match total
      case Hours(h) => Hours(h / count as real)
      case NotANumber => NotANumber
  }

  /** Everything the profile screen shows. */
  datatype ProfileView = ProfileView(
    initial: string,
    headerName: string,
    headerGroup: string,
    totalHours: Total,
    sessionCount: nat,
    averageHours: Total,
    nameRow: string,
    emailRow: string,
    phoneRow: string,
    ageRow: string)

  /** The profile screen for the signed-in user (if any) and the session log. */
  function View(user: Option<User>, log: LogState): (v: ProfileView)
    ensures v.sessionCount == |log.sessions| && v.totalHours == log.total
    ensures user.None? ==>
      && v.initial == "V" && v.headerName == "Volunteer" && v.headerGroup == "Volunteer"
      && v.nameRow == "Not set" && v.emailRow == "Not set"
      && v.phoneRow == "Not set" && v.ageRow == "Not set"
    ensures v.initial == Initial(user)
    ensures v.averageHours == AverageHours(log.total, |log.sessions|)
    ensures user.Some? ==>
      && v.headerName == OrElse(user.value.name, "Volunteer")
      && v.nameRow == OrElse(user.value.name, "Not set")
      && v.emailRow == OrElse(user.value.email, "Not set")
      && v.phoneRow == OrElse(user.value.phone, "Not set")
      && v.ageRow == AgeRow(user.value.age)
    ensures user.Some? && user.value.ageGroup != "" ==> v.headerGroup == LabelOfKey(user.value.ageGroup)
    ensures user.Some? && user.value.ageGroup == "" ==> v.headerGroup == "Volunteer"
  {
    var name := if user.Some? then user.value.name else "";
    var email := if user.Some? then user.value.email else "";
    var phone := if user.Some? then user.value.phone else "";
    var age := if user.Some? then user.value.age else JsInt.NaN;
    var group := if user.Some? then user.value.ageGroup else "";
    AgeGroupTextAgrees(group);
    ProfileView(
      Initial(user),
      OrElse(name, "Volunteer"),
      if group != "" then AgeGroupText(group) else "Volunteer",
      log.total,
      |log.sessions|,
      AverageHours(log.total, |log.sessions|),
      OrElse(name, "Not set"),
      OrElse(email, "Not set"),
      OrElse(phone, "Not set"),
      AgeRow(age))
  }

  /** With a consistent log of non-negative sessions, the average times the
      count is the sum, and lies between 0 and the total. */
  lemma AverageOfConsistentLog(log: LogState)
    requires Consistent(log) && NonNegative(log.sessions) && |log.sessions| > 0
    ensures var a := AverageHours(log.total, |log.sessions|);
      && a.Hours?
      && a.h * |log.sessions| as real == Sum(log.sessions)
      && 0.0 <= a.h <= Sum(log.sessions)
  {
    SumBounds(log.sessions);
    var n := |log.sessions| as real;
    var a := AverageHours(log.total, |log.sessions|);
    assert a.h * n == Sum(log.sessions);
    assert a.h == Sum(log.sessions) / n;
  }

  /** A freshly signed-up user's profile shows what was typed, with the
      label of the group their age gave. */
  lemma SignedUpProfile(f: Signup.Form, id: string, log: LogState)
    requires Signup.HandleSignup(f).Ok?
    ensures var p := Signup.HandleSignup(f).value.profile;
      var v := View(Some(Signup.NewUser(id, p)), log);
      && v.headerName == f.name && v.nameRow == f.name
      && v.emailRow == f.email && v.phoneRow == f.phone
      && v.headerGroup == Label(Signup.ClassifyAge(ParseInt(f.age)))
  {
    var p := Signup.HandleSignup(f).value.profile;
    KeyRoundTrip(p.ageGroup);
  }
}

=== FILE: recent.dfy ===
/** The timer screen's "Recent Sessions" list: a copy of the log sorted by
    date, latest first, cut to five. The sort is stable, as JavaScript's
    `Array.prototype.sort` is: sessions of the same day keep their order. */
module Recent {
  import opened Sessions

  /** How many sessions the list shows at most. */
  const RecentCount: nat := 5

  /** Latest day first. */
  predicate SortedDesc(s: seq<Session>) {
    forall i, j :: 0 <= i < j < |s| ==> s[i].date >= s[j].date
  }

  /** Puts `x` in front of the first session whose date is not later than
      its own, so it stays ahead of the sessions of its own day. */
  function Insert(x: Session, t: seq<Session>): (r: seq<Session>)
    requires SortedDesc(t)
    ensures |r| == |t| + 1
    ensures r[0] == x || (|t| > 0 && r[0] == t[0])
    ensures SortedDesc(r)
    ensures multiset(r) == multiset(t) + multiset{x}
  {
    if |t| == 0 || t[0].date <= x.date then SortedCons(x, t); [x] + t
    else
      var rest := Insert(x, t[1..]);
      assert t == [t[0]] + t[1..];
      assert rest[0].date <= t[0].date;
      SortedCons(t[0], rest);
      [t[0]] + rest
  }

  lemma SortedCons(a: Session, s: seq<Session>)
    requires SortedDesc(s) && (|s| == 0 || s[0].date <= a.date)
    ensures SortedDesc([a] + s)
  {
    var r := [a] + s;
    forall i, j | 0 <= i < j < |r|
      ensures r[i].date >= r[j].date
    {
      if i == 0 {
        assert r[j] == s[j - 1];
      } else {
        assert r[i] == s[i - 1] && r[j] == s[j - 1];
      }
    }
  }

  /** `[...sessions].sort((a, b) => new Date(b.date) - new Date(a.date))`:
      the same sessions, latest day first. */
  function SortByDateDesc(s: seq<Session>): (r: seq<Session>)
    ensures |r| == |s|
    ensures SortedDesc(r)
    ensures multiset(r) == multiset(s)
  {
    if |s| == 0 then []
    else
      assert s == [s[0]] + s[1..];
      Insert(s[0], SortByDateDesc(s[1..]))
  }

  /** The sessions of one day, in order. */
  function OnDay(s: seq<Session>, d: int): seq<Session> {
    if |s| == 0 then []
    else (if s[0].date == d then [s[0]] else []) + OnDay(s[1..], d)
  }

  lemma {:induction false} InsertOnDay(x: Session, t: seq<Session>, d: int)
    requires SortedDesc(t)
    ensures OnDay(Insert(x, t), d) == if x.date == d then [x] + OnDay(t, d) else OnDay(t, d)
  {
    if |t| == 0 || t[0].date <= x.date {
      assert ([x] + t)[1..] == t;
    } else {
      var rest := Insert(x, t[1..]);
      assert ([t[0]] + rest)[1..] == rest;
      InsertOnDay(x, t[1..], d);
    }
  }

  /** The sort is stable: within each day the sessions keep their order. */
  lemma {:induction false} SortStable(s: seq<Session>, d: int)
    ensures OnDay(SortByDateDesc(s), d) == OnDay(s, d)
  {
    if |s| > 0 {
      SortStable(s[1..], d);
      InsertOnDay(s[0], SortByDateDesc(s[1..]), d);
    }
  }

  /** `.slice(0, 5)` of the sorted copy. */
  function RecentSessions(s: seq<Session>): (r: seq<Session>)
    ensures |r| == if |s| < RecentCount then |s| else RecentCount
    ensures SortedDesc(r)
    ensures multiset(r) <= multiset(s)
    ensures forall i :: 0 <= i < |r| ==> r[i] in s
  {
    var sorted := SortByDateDesc(s);
    var n := if |sorted| < RecentCount then |sorted| else RecentCount;
    PrefixDrawnFrom(sorted, s, n);
    sorted[..n]
  }

  lemma PrefixDrawnFrom(sorted: seq<Session>, s: seq<Session>, n: nat)
    requires n <= |sorted| && multiset(sorted) == multiset(s)
    ensures multiset(sorted[..n]) <= multiset(s)
    ensures forall i :: 0 <= i < n ==> sorted[..n][i] in s
  {
    assert sorted == sorted[..n] + sorted[n..];
    forall i | 0 <= i < n
      ensures sorted[..n][i] in s
    {
      assert sorted[..n][i] in multiset(sorted);
    }
  }

  /** Within each day the list keeps the sessions logged first: the list's
      sessions of any day are a prefix of the log's sessions of that day. */
  lemma RecentKeepsFirstOfDay(s: seq<Session>, d: int)
    ensures OnDay(RecentSessions(s), d) <= OnDay(s, d)
  {
    var sorted := SortByDateDesc(s);
    var n := if |sorted| < RecentCount then |sorted| else RecentCount;
    assert RecentSessions(s) == sorted[..n];
    OnDayPrefix(sorted, n, d);
    SortStable(s, d);
  }

  /** Cutting a list keeps a prefix of each day's sessions. */
  lemma {:induction false} OnDayPrefix(s: seq<Session>, n: nat, d: int)
    requires n <= |s|
    ensures OnDay(s[..n], d) <= OnDay(s, d)
  {
    if n > 0 {
      assert s[..n][1..] == s[1..][..n - 1];
      OnDayPrefix(s[1..], n - 1, d);
    }
  }

  /** Nothing left out of the list is later than anything in it. */
  lemma RecentAreLatest(s: seq<Session>, x: Session, y: Session)
    requires x in multiset(s) - multiset(RecentSessions(s))
    requires y in RecentSessions(s)
    ensures x.date <= y.date
  {
    var sorted := SortByDateDesc(s);
    var n := |RecentSessions(s)|;
    assert RecentSessions(s) == sorted[..n];
    LeftOutIsBehind(sorted, n, x);
    var k :| n <= k < |sorted| && sorted[k] == x;
    var j :| 0 <= j < n && sorted[..n][j] == y;
    assert sorted[j] == y;
  }

  /** What a cut leaves out sits behind the cut. */
  lemma LeftOutIsBehind(sorted: seq<Session>, n: nat, x: Session)
    requires n <= |sorted|
    requires x in multiset(sorted) - multiset(sorted[..n])
    ensures exists k :: n <= k < |sorted| && sorted[k] == x
  {
    assert sorted == sorted[..n] + sorted[n..];
    assert multiset(sorted) == multiset(sorted[..n]) + multiset(sorted[n..]);
    assert x in sorted[n..];
    var i :| 0 <= i < |sorted| - n && sorted[n..][i] == x;
    assert sorted[n + i] == x;
  }
}

=== FILE: session_log.dfy ===
/** The volunteer context: the session list with a cached hour total, and its
    load, add, delete and update transitions. Each operation is a step from
    the latest state to the next; persisting the list is left to storage. */
module SessionLog {
  import opened Wrappers
  import opened Sessions
  import opened Users
  import Awards

  /** The cached total. Arithmetic with `undefined` turns it into `NaN`,
      which then absorbs every later addition and subtraction. */
  datatype Total = Hours(h: real) | NotANumber {
    function Plus(d: real): Total {
      if Hours? then Hours(h + d) else NotANumber
    }
    function Minus(d: real): Total {
      if Hours? then Hours(h - d) else NotANumber
    }
  }

  datatype LogState = LogState(sessions: seq<Session>, total: Total)

  /** The new state, and the boolean the context operation returns. */
  datatype Reply = Reply(state: LogState, done: bool)

  /** The fields an update supplies; an absent field keeps its old value. */
  datatype Patch = Patch(
    id: Option<string>,
    date: Option<int>,
    startTime: Option<int>,
    endTime: Option<int>,
    duration: Option<real>,
    description: Option<string>)

  /** The invariant the cache is meant to keep: the total is the sum of the
      durations of the sessions. */
  predicate Consistent(st: LogState) {
    st.total == Hours(Sum(st.sessions))
  }

  /** No two sessions share an id. */
  predicate UniqueIds(s: seq<Session>) {
    forall i, j :: 0 <= i < |s| && 0 <= j < |s| && i != j ==> s[i].id != s[j].id
  }

  /** The state before anything is loaded: no sessions, total 0. */
  function Empty(): (st: LogState)
    ensures Consistent(st)
  {
    LogState([], Hours(0.0))
  }

  /** The load effect, run whenever the signed-in user changes. Signed out:
      reset to empty. Signed in with a stored list: take it and total it.
      Signed in with nothing stored: the state is left as it was. */
  function Load(st: LogState, user: Option<User>, stored: Option<seq<Session>>): (r: LogState)
    ensures user.None? ==> r == Empty()
    ensures user.Some? && stored.Some? ==> r.sessions == stored.value && Consistent(r)
    ensures user.Some? && stored.None? ==> r == st
  {
    match user
    case None => LogState([], Hours(0.0))
    case Some(_) =>
      match stored
      case Some(sessions) => LogState(sessions, Hours(Sum(sessions)))
      case None => st
  }

  /** Loading never breaks the invariant, and makes it hold whenever a list
      is taken or the state is reset. */
  lemma LoadConsistent(st: LogState, user: Option<User>, stored: Option<seq<Session>>)
    requires Consistent(st) || user.None? || stored.Some?
    ensures Consistent(Load(st, user, stored))
  {
  }

  /** `addVolunteerSession`: append at the end, add the duration to the total,
      report success. */
  function Add(st: LogState, s: Session): (r: Reply)
    ensures r.done
    ensures |r.state.sessions| == |st.sessions| + 1
    ensures r.state.sessions[..|st.sessions|] == st.sessions
    ensures r.state.sessions[|st.sessions|] == s
    ensures r.state.total == st.total.Plus(s.duration)
  {
    Reply(LogState(st.sessions + [s], st.total.Plus(s.duration)), true)
  }

  /** Adding keeps the cached total equal to the sum. */
  lemma AddConsistent(st: LogState, s: Session)
    requires Consistent(st)
    ensures Consistent(Add(st, s).state)
  {
    var t := st.sessions + [s];
    assert t[..|t| - 1] == st.sessions;
  }

  /** Adding a session under a fresh id keeps the ids unique. */
  lemma AddKeepsUniqueIds(st: LogState, s: Session)
    requires UniqueIds(st.sessions)
    requires forall i :: 0 <= i < |st.sessions| ==> st.sessions[i].id != s.id
    ensures UniqueIds(Add(st, s).state.sessions)
  {
  }

  /** `findIndex`: the first position holding `id`, if any. */
  function FindIndex(s: seq<Session>, id: string): (r: Option<nat>)
    ensures r.Some? ==> r.value < |s| && s[r.value].id == id
    ensures r.Some? ==> forall j :: 0 <= j < r.value ==> s[j].id != id
    ensures r.None? ==> forall j :: 0 <= j < |s| ==> s[j].id != id
  {
    if |s| == 0 then None
    else if s[0].id == id then Some(0)
    else match FindIndex(s[1..], id)
      case Some(k) => Some(k + 1)
      case None => None
  }

  /** `filter(session => session.id !== id)`. */
  function RemoveId(s: seq<Session>, id: string): (r: seq<Session>)
    ensures |r| <= |s|
    ensures forall j :: 0 <= j < |r| ==> r[j].id != id
  {
    if |s| == 0 then []
    else if s[0].id == id then RemoveId(s[1..], id)
    else [s[0]] + RemoveId(s[1..], id)
  }

  /** Filtering keeps exactly the sessions under other ids. */
  lemma {:induction false} RemoveIdMembers(s: seq<Session>, id: string)
    ensures forall x :: x in RemoveId(s, id) <==> x in s && x.id != id
  {
    if |s| > 0 {
      RemoveIdMembers(s[1..], id);
      assert forall x :: x in s <==> x == s[0] || x in s[1..];
    }
  }

  /** The filter keeps order and duplicates: it works piecewise on a concatenation. */
  lemma {:induction false} RemoveIdAppend(a: seq<Session>, b: seq<Session>, id: string)
    ensures RemoveId(a + b, id) == RemoveId(a, id) + RemoveId(b, id)
  {
    if |a| > 0 {
      assert (a + b)[1..] == a[1..] + b;
      RemoveIdAppend(a[1..], b, id);
    } else {
      assert a + b == b;
    }
  }

  /** Filtering an id no session has keeps the list as it is. */
  lemma {:induction false} RemoveAbsentId(s: seq<Session>, id: string)
    requires forall j :: 0 <= j < |s| ==> s[j].id != id
    ensures RemoveId(s, id) == s
  {
    if |s| > 0 {
      RemoveAbsentId(s[1..], id);
      assert s == [s[0]] + s[1..];
    }
  }

  /** `deleteVolunteerSession`. An absent id changes nothing and reports
      failure. Otherwise every session with that id is filtered out, but
      only the first match's duration is taken off the total. */
  function Delete(st: LogState, id: string): (r: Reply)
    ensures r.done <==> exists j :: 0 <= j < |st.sessions| && st.sessions[j].id == id
    ensures !r.done ==> r.state == st
    ensures r.done ==>
      && r.state.sessions == RemoveId(st.sessions, id)
      && r.state.total == st.total.Minus(st.sessions[FindIndex(st.sessions, id).value].duration)
  {
    match FindIndex(st.sessions, id)
    case None => Reply(st, false)
    case Some(i) =>
      Reply(LogState(RemoveId(st.sessions, id), st.total.Minus(st.sessions[i].duration)), true)
  }

  /** With unique ids, filtering an id out removes exactly its one position. */
  lemma RemoveUniqueId(s: seq<Session>, i: nat, id: string)
    requires UniqueIds(s) && i < |s| && s[i].id == id
    ensures RemoveId(s, id) == s[..i] + s[i + 1..]
  {
    var a, b := s[..i], s[i + 1..];
    assert s == a + ([s[i]] + b);
    RemoveIdAppend(a, [s[i]] + b, id);
    RemoveIdAppend([s[i]], b, id);
    assert RemoveId([s[i]], id) == [];
    RemoveAbsentId(a, id);
    assert forall j :: 0 <= j < |b| ==> b[j] == s[i + 1 + j];
    RemoveAbsentId(b, id);
  }

  /** With unique ids, deleting removes exactly one session and keeps the
      cached total equal to the sum. */
  lemma DeleteConsistent(st: LogState, id: string)
    requires Consistent(st) && UniqueIds(st.sessions)
    ensures Consistent(Delete(st, id).state)
    ensures Delete(st, id).done ==> |Delete(st, id).state.sessions| == |st.sessions| - 1
  {
    var s := st.sessions;
    match FindIndex(s, id)
    case None =>
    case Some(i) =>
      var r := Delete(st, id);
      assert r.state == LogState(RemoveId(s, id), st.total.Minus(s[i].duration));
      RemoveUniqueId(s, i, id);
      SumSplitAt(s, i);
      SumAppend(s[..i], s[i + 1..]);
      assert Sum(r.state.sessions) == Sum(s) - s[i].duration;
  }

  /** Without unique ids the cache drifts: when two sessions share an id,
      both are removed but only one duration is subtracted, so the total
      stays right only if that duration is 0. */
  lemma DeleteDuplicateIdDrifts(s: Session)
    ensures var st := LogState([s, s], Hours(s.duration + s.duration));
      && Consistent(st)
      && (Consistent(Delete(st, s.id).state) <==> s.duration == 0.0)
  {
    var st := LogState([s, s], Hours(s.duration + s.duration));
    assert [s, s][..1] == [s];
    assert Sum([s]) == s.duration by {
      assert [s][..0] == [];
    }
    assert RemoveId([s, s], s.id) == [] by {
      assert [s, s][1..] == [s];
      assert [s][1..] == [];
    }
    assert Delete(st, s.id).state == LogState([], Hours(s.duration));
  }

  /** The old record with the supplied fields written over it
      (`{...old, ...updatedData}`). */
  function Merge(prev: Session, p: Patch): (r: Session)
    ensures r.id == p.id.GetOr(prev.id) && r.date == p.date.GetOr(prev.date)
    ensures r.startTime == p.startTime.GetOr(prev.startTime) && r.endTime == p.endTime.GetOr(prev.endTime)
    ensures r.duration == p.duration.GetOr(prev.duration)
    ensures r.description == p.description.GetOr(prev.description)
    ensures p == Patch(None, None, None, None, None, None) ==> r == prev
  {
    Session(
      p.id.GetOr(prev.id),
      p.date.GetOr(prev.date),
      p.startTime.GetOr(prev.startTime),
      p.endTime.GetOr(prev.endTime),
      p.duration.GetOr(prev.duration),
      p.description.GetOr(prev.description))
  }

  /** `updateVolunteerSession`. An absent id changes nothing and reports
      failure. Otherwise only the first match is rewritten, and the total
      becomes `total - old + updatedData.duration`, which is `NaN` when the
      update supplies no duration. */
  function Update(st: LogState, id: string, p: Patch): (r: Reply)
    ensures r.done <==> exists j :: 0 <= j < |st.sessions| && st.sessions[j].id == id
    ensures !r.done ==> r.state == st
    ensures r.done ==>
      var i := FindIndex(st.sessions, id).value;
      && |r.state.sessions| == |st.sessions|
      && r.state.sessions[i] == Merge(st.sessions[i], p)
      && (forall j :: 0 <= j < |st.sessions| && j != i ==> r.state.sessions[j] == st.sessions[j])
      && (p.duration.Some? ==> r.state.total == st.total.Minus(st.sessions[i].duration).Plus(p.duration.value))
      && (p.duration.None? ==> r.state.total == NotANumber)
  {
    match FindIndex(st.sessions, id)
    case None => Reply(st, false)
    case Some(i) =>
      var prev := st.sessions[i];
      var total := match p.duration
        case Some(d) => st.total.Minus(prev.duration).Plus(d)
        case None => NotANumber;
      Reply(LogState(st.sessions[i := Merge(prev, p)], total), true)
  }

  /** An update that supplies a duration keeps the cached total equal to the sum. */
  lemma UpdateConsistent(st: LogState, id: string, p: Patch)
    requires Consistent(st)
    requires p.duration.Some?
    ensures Consistent(Update(st, id, p).state)
  {
    var s := st.sessions;
    match FindIndex(s, id)
    case None =>
    case Some(i) =>
      var t := s[i := Merge(s[i], p)];
      SumSplitAt(s, i);
      SumSplitAt(t, i);
      assert t[..i] == s[..i];
      assert t[i + 1..] == s[i + 1..];
  }

  /** An update without a duration loses the total for good. */
  lemma UpdateWithoutDurationIsNaN(st: LogState, id: string, p: Patch)
    requires p.duration.None?
    requires Update(st, id, p).done
    ensures Update(st, id, p).state.total == NotANumber
  {
  }

  /** The progress screen totals the list itself; on a consistent log it
      shows the same total the context caches. */
  lemma ProgressTotalMatchesCache(st: LogState, key: string)
    requires Consistent(st)
    requires Awards.ResolveAgeGroup(key).Ok?
    ensures Awards.ComputeStatus(key, st.sessions).Ok?
    ensures Hours(Awards.ComputeStatus(key, st.sessions).value.totalHours) == st.total
  {
  }
}

=== FILE: sessions.dfy ===
/** The volunteer session record and the hour total over a list of them. */
module Sessions {

  /** One logged stretch of volunteering. `date` is the calendar day (a day
      number, so later days are larger); `startTime` and `endTime` are the
      instants the entry was made from, in milliseconds; `duration` is in
      hours. */
  datatype Session = Session(
    id: string,
    date: int,
    startTime: int,
    endTime: int,
    duration: real,
    description: string)

  /** The sum of the durations, added left to right from 0 as
      `sessions.reduce((sum, session) => sum + session.duration, 0)` does. */
  function Sum(sessions: seq<Session>): real {
    if |sessions| == 0 then 0.0
    else Sum(sessions[..|sessions| - 1]) + sessions[|sessions| - 1].duration
  }

  predicate NonNegative(sessions: seq<Session>) {
    forall i :: 0 <= i < |sessions| ==> sessions[i].duration >= 0.0
  }

  /** Summing a concatenation sums the parts. */
  lemma {:induction false} SumAppend(a: seq<Session>, b: seq<Session>)
    ensures Sum(a + b) == Sum(a) + Sum(b)
  {
    if |b| > 0 {
      var ab := a + b;
      assert ab[..|ab| - 1] == a + b[..|b| - 1];
      SumAppend(a, b[..|b| - 1]);
    } else {
      assert a + b == a;
    }
  }

  /** The sum splits around any one session. */
  lemma SumSplitAt(s: seq<Session>, i: nat)
    requires i < |s|
    ensures Sum(s) == Sum(s[..i]) + s[i].duration + Sum(s[i + 1..])
  {
    assert s == s[..i] + ([s[i]] + s[i + 1..]);
    SumAppend(s[..i], [s[i]] + s[i + 1..]);
    SumAppend([s[i]], s[i + 1..]);
    assert [s[i]][..0] == [];
  }

  /** No negative duration, no negative total; and every single duration is
      at most the total. */
  lemma {:induction false} SumBounds(s: seq<Session>)
    requires NonNegative(s)
    ensures Sum(s) >= 0.0
    ensures forall i :: 0 <= i < |s| ==> s[i].duration <= Sum(s)
  {
    if |s| > 0 {
      SumBounds(s[..|s| - 1]);
      forall i | 0 <= i < |s|
        ensures s[i].duration <= Sum(s)
      {
        if i < |s| - 1 {
          assert s[..|s| - 1][i] == s[i];
        }
      }
    }
  }

  /** The running total as the progress screen folds it, one session at a time. */
  method TotalHours(sessions: seq<Session>) returns (total: real)
    ensures total == Sum(sessions)
    ensures NonNegative(sessions) ==> total >= 0.0
  {
    total := 0.0;
    var i := 0;
    while i < |sessions|
      invariant 0 <= i <= |sessions|
      invariant total == Sum(sessions[..i])
    {
      assert sessions[..i + 1][..i] == sessions[..i];
      total := total + sessions[i].duration;
      i := i + 1;
    }
    assert sessions[..i] == sessions;
    if NonNegative(sessions) {
      SumBounds(sessions);
    }
  }
}

=== FILE: signup.dfy ===
/** The sign-up form: field validation and the age-to-group classification. */
module Signup {
  import opened Wrappers
  import opened Decimal
  import opened Users
  import opened Awards

  /** The six text fields of the form, as typed. */
  datatype Form = Form(
    name: string,
    age: string,
    email: string,
    phone: string,
    password: string,
    confirmPassword: string)

  /** Why the form is sent back (each shows an alert; nothing is registered). */
  datatype Rejection = EmptyField | PasswordMismatch

  /** The profile handed to the registration call. */
  datatype UserProfile = UserProfile(name: string, age: JsInt, email: string, phone: string, ageGroup: AgeGroup)

  /** The arguments of `signUp(email, password, userProfile)`. */
  datatype Registration = Registration(email: string, password: string, profile: UserProfile)

  /** The inclusive age range a bounded group covers. */
  predicate InRange(age: int, g: AgeGroup) {
    match g
    case Kids => 5 <= age <= 10
    case Teens => 11 <= age <= 15
    case YoungAdults => 16 <= age <= 18
    case Adults => false
  }

  /** The age-group chain of the sign-up handler. Every comparison with
      `NaN` is false, so a non-numeric age falls through to adults. */
  function ClassifyAge(age: JsInt): (g: AgeGroup)
    ensures g != Adults <==> age.Int? && InRange(age.n, g)
    ensures g == Adults <==> age.NaN? || forall h :: !InRange(age.n, h)
  {
    if age.Int? && age.n >= 5 && age.n <= 10 then Kids
    else if age.Int? && age.n >= 11 && age.n <= 15 then Teens
    else if age.Int? && age.n >= 16 && age.n <= 18 then YoungAdults
    else Adults
  }

  /** The bounded ranges do not overlap: an age lies in at most one. */
  lemma RangesDisjoint(age: int, g: AgeGroup, h: AgeGroup)
    requires InRange(age, g) && InRange(age, h)
    ensures g == h
  {
  }

  /** The classification in terms of the ranges alone: an age in a range gets
      that range's group, and any other age (under 5, over 18) gets adults. */
  lemma ClassifyByRange(age: int, g: AgeGroup)
    ensures ClassifyAge(Int(age)) == g <==> InRange(age, g) || (g == Adults && forall h :: !InRange(age, h))
  {
  }

  /** Text with no digit in it (so `parseInt` gives `NaN`) is classified as adults. */
  lemma NonNumericAgeIsAdults(age: string)
    requires forall i :: 0 <= i < |age| ==> !IsDigit(age[i])
    ensures ClassifyAge(ParseInt(age)) == Adults
  {
    NoDigitIsNaN(age);
  }

  /** The sign-up handler. The empty-field check runs first, then the
      password check; only a form passing both is registered, with the
      parsed age and the group computed from it. */
  function HandleSignup(f: Form): (r: Result<Registration, Rejection>)
    ensures r == Err(EmptyField) <==>
      f.name == "" || f.age == "" || f.email == "" || f.phone == ""
      || f.password == "" || f.confirmPassword == ""
    ensures r == Err(PasswordMismatch) <==> !(r == Err(EmptyField)) && f.password != f.confirmPassword
    ensures r.Ok? ==>
      && r.value.email == f.email && r.value.password == f.password
      && r.value.profile.name == f.name && r.value.profile.email == f.email
      && r.value.profile.phone == f.phone
      && r.value.profile.age == ParseInt(f.age)
      && r.value.profile.ageGroup == ClassifyAge(ParseInt(f.age))
  {
    if f.name == "" || f.age == "" || f.email == "" || f.phone == ""
       || f.password == "" || f.confirmPassword == "" then
      Err(EmptyField)
    else if f.password != f.confirmPassword then
      Err(PasswordMismatch)
    else
      var ageNum := ParseInt(f.age);
      Ok(Registration(f.email, f.password,
        UserProfile(f.name, ageNum, f.email, f.phone, ClassifyAge(ageNum))))
  }

  /** The stored user `signUp` builds: a fresh id spread with the profile,
      the group kept under its table key. */
  function NewUser(id: string, p: UserProfile): (u: User)
    ensures GroupOfKey(u.ageGroup) == Some(p.ageGroup)
    ensures u.id == id && u.name == p.name && u.email == p.email
    ensures u.phone == p.phone && u.age == p.age
  {
    KeyRoundTrip(p.ageGroup);
    User(id, p.name, p.email, p.phone, p.age, Key(p.ageGroup))
  }

  /** Whoever signs up, the progress screen finds their group in the award
      table: a registered user never meets the unknown-group error, and is
      judged by the table of the group their age gave. */
  lemma SignedUpUserHasKnownGroup(f: Form, id: string)
    requires HandleSignup(f).Ok?
    ensures ResolveAgeGroup(NewUser(id, HandleSignup(f).value.profile).ageGroup)
      == Ok(ClassifyAge(ParseInt(f.age)))
  {
    KeyRoundTrip(ClassifyAge(ParseInt(f.age)));
  }
}

=== FILE: timer.dfy ===
/** The timer screen: the elapsed-time display, the clock-in/clock-out
    machine and the manual entry form. */
module Timer {
  import opened Wrappers
  import opened Decimal
  import opened Sessions
  import opened SessionLog

  /** Hours, minutes and seconds of a count of seconds. */
  datatype ClockFields = ClockFields(hours: nat, minutes: nat, seconds: nat)

  /** The split `formatTime` makes: whole hours, then whole minutes of the
      rest, then the remaining seconds. */
  function SplitSeconds(total: nat): (f: ClockFields)
    ensures f.hours * 3600 + f.minutes * 60 + f.seconds == total
    ensures f.minutes < 60 && f.seconds < 60
  {
    ClockFields(total / 3600, (total % 3600) / 60, total % 60)
  }

  /** Only one split has minutes and seconds below 60, so the display
      determines the count. */
  lemma SplitSecondsUnique(total: nat, f: ClockFields)
    requires f.minutes < 60 && f.seconds < 60
    requires f.hours * 3600 + f.minutes * 60 + f.seconds == total
    ensures f == SplitSeconds(total)
  {
    var rest := f.minutes * 60 + f.seconds;
    DivBy3600(total, f.hours, rest);
    DivBy60(rest, f.minutes, f.seconds);
    DivBy60(total, f.hours * 60 + f.minutes, f.seconds);
  }

  lemma DivBy3600(n: nat, q: nat, r: nat)
    requires r < 3600 && n == q * 3600 + r
    ensures n / 3600 == q && n % 3600 == r
  {
  }

  lemma DivBy60(n: nat, q: nat, r: nat)
    requires r < 60 && n == q * 60 + r
    ensures n / 60 == q && n % 60 == r
  {
  }

  /** `formatTime`: `HH:MM:SS`, each field padded to two digits; hours from
      100 on take as many digits as they need, with no leading zero. */
  function FormatTime(total: nat): (r: string)
    ensures |r| >= 8 && r[|r| - 3] == ':' && r[|r| - 6] == ':'
    ensures |r| == 8 <==> total < 360000
    ensures |r| > 8 ==> r[0] != '0'
    ensures var f := SplitSeconds(total); Shows(r, Field(f.hours), Field(f.minutes), Field(f.seconds))
  {
    HoursBelow100(total);
    Display(SplitSeconds(total))
  }

  lemma HoursBelow100(total: nat)
    ensures SplitSeconds(total).hours < 100 <==> total < 360000
  {
    var h, r := total / 3600, total % 3600;
    assert total == h * 3600 + r && 0 <= r < 3600;
  }

  /** The three fields, each padded to two digits, joined by colons. */
  function Display(f: ClockFields): (r: string)
    requires f.minutes < 60 && f.seconds < 60
    ensures |r| >= 8 && r[|r| - 3] == ':' && r[|r| - 6] == ':'
    ensures |r| == 8 <==> f.hours < 100
    ensures |r| > 8 ==> r[0] != '0'
    ensures Shows(r, Field(f.hours), Field(f.minutes), Field(f.seconds))
  {
    Join(Field(f.hours), Field(f.minutes), Field(f.seconds))
  }

  /** `t` shows `h`, `m` and `s` as its hours, minutes and seconds fields:
      `h` before the first colon, `m` between the two, `s` after the second. */
  predicate Shows(t: string, h: string, m: string, s: string) {
    |t| >= 6 && t[..|t| - 6] == h && t[|t| - 5..|t| - 3] == m && t[|t| - 2..] == s
  }

  /** The display reads back as the fields it shows. */
  lemma DisplayReadsBack(f: ClockFields)
    requires f.minutes < 60 && f.seconds < 60
    ensures ParseClock(Display(f)) == Some(f.hours * 3600 + f.minutes * 60 + f.seconds)
  {
    var h, m, s := Field(f.hours), Field(f.minutes), Field(f.seconds);
    JoinReadsBack(h, m, s, f.hours, f.minutes, f.seconds);
  }

  /** Joined numerals read back as the seconds they denote. */
  lemma JoinReadsBack(h: string, m: string, s: string, a: nat, b: nat, c: nat)
    requires |h| >= 2 && |m| == 2 && |s| == 2
    requires AllDigits(h) && AllDigits(m) && AllDigits(s)
    requires Value(h) == a && Value(m) == b && Value(s) == c
    ensures ParseClock(Join(h, m, s)) == Some(a * 3600 + b * 60 + c)
  {
  }

  /** One field of the display: `n.toString().padStart(2, '0')`, a numeral
      of at least two digits that reads back as `n`. */
  function Field(n: nat): (r: string)
    ensures AllDigits(r) && Value(r) == n
    ensures |r| >= 2 && (|r| == 2 <==> n < 100)
    ensures |r| > 2 ==> r[0] != '0'
  {
    PadStart2Value(NatToString(n));
    PadStart2(NatToString(n))
  }

  /** `h:m:s`, for minute and second fields of two characters. */
  function Join(h: string, m: string, s: string): (r: string)
    requires |h| >= 2 && |m| == 2 && |s| == 2
    ensures |r| == |h| + 6 && r[0] == h[0] && r[|r| - 3] == ':' && r[|r| - 6] == ':'
    ensures Shows(r, h, m, s)
    ensures ParseClock(r) == FieldsValue(h, m, s)
  {
    var r := h + ":" + m + ":" + s;
    assert r[..|r| - 6] == h;
    assert r[|r| - 5..|r| - 3] == m;
    assert r[|r| - 2..] == s;
    r
  }

  /** The count of seconds three numeral fields denote, if all are numerals. */
  function FieldsValue(h: string, m: string, s: string): Option<nat> {
    if AllDigits(h) && AllDigits(m) && AllDigits(s)
    then Some(Value(h) * 3600 + Value(m) * 60 + Value(s))
    else None
  }

  /** Reads an `H…H:MM:SS` display back into seconds. */
  function ParseClock(t: string): Option<nat> {
    if |t| < 8 || t[|t| - 6] != ':' || t[|t| - 3] != ':' then None
    else FieldsValue(t[..|t| - 6], t[|t| - 5..|t| - 3], t[|t| - 2..])
  }

  /** The display loses nothing: it reads back as the count it shows. */
  lemma FormatTimeRoundTrip(total: nat)
    ensures ParseClock(FormatTime(total)) == Some(total)
  {
    DisplayReadsBack(SplitSeconds(total));
  }

  /** The clock-in/clock-out machine: stopped, or running since `startTime`
      (milliseconds) with `elapsed` seconds counted so far. Stopped means the
      display shows zero and there is no start time. */
  datatype Clock = Stopped | Running(startTime: int, elapsed: nat) {
    function Elapsed(): nat {
      if Running? then elapsed else 0
    }
  }

  /** Pressing Clock In: disabled while running; otherwise start counting
      from now. */
  function ClockIn(c: Clock, now: int): (r: Clock)
    ensures c.Running? ==> r == c
    ensures c.Stopped? ==> r.Running? && r.startTime == now && r.Elapsed() == 0
  {
    match c
    case Running(_, _) => c
    case Stopped => Running(now, 0)
  }

  /** One tick of the one-second interval, which exists only while running. */
  function Tick(c: Clock): (r: Clock)
    ensures c.Running? ==> r.Running? && r.startTime == c.startTime && r.Elapsed() == c.Elapsed() + 1
    ensures c.Stopped? ==> r == Stopped
  {
    match c
    case Running(start, e) => Running(start, e + 1)
    case Stopped => Stopped
  }

  /** The clock after `n` ticks of the interval. */
  function Ticks(c: Clock, n: nat): Clock {
    if n == 0 then c else Tick(Ticks(c, n - 1))
  }

  /** Clocking in and letting `n` seconds pass shows `n` seconds; pressing
      Clock In again meanwhile changes nothing. */
  lemma {:induction false} RunCounts(start: int, n: nat, again: int)
    ensures Ticks(ClockIn(Stopped, start), n) == Running(start, n)
    ensures ClockIn(Ticks(ClockIn(Stopped, start), n), again) == Running(start, n)
  {
    if n > 0 {
      RunCounts(start, n - 1, again);
    }
  }

  /** The clock, the session log, and the session recorded, if any. */
  datatype ClockOutcome = ClockOutcome(clock: Clock, log: LogState, recorded: Option<Session>)

  /** Pressing Clock Out: disabled while stopped. Otherwise the elapsed
      seconds become a session of `elapsed / 3600` hours, described as a
      volunteer session, dated `day` (the start instant's calendar day) and
      appended to the log; the clock stops and its count goes back to 0. */
  function ClockOut(c: Clock, log: LogState, id: string, day: int, now: int): (r: ClockOutcome)
    ensures c.Stopped? ==> r == ClockOutcome(c, log, None)
    ensures c.Running? ==>
      && r.clock == Stopped
      && r.recorded.Some?
      && r.recorded.value.duration * 3600.0 == c.elapsed as real
      && r.recorded.value.description == "Volunteer Session"
      && r.recorded.value.startTime == c.startTime && r.recorded.value.endTime == now
      && r.recorded.value.date == day && r.recorded.value.id == id
      && r.log == Add(log, r.recorded.value).state
  {
    match c
    case Stopped => ClockOutcome(c, log, None)
    case Running(start, e) =>
      var s := Session(id, day, start, now, e as real / 3600.0, "Volunteer Session");
      ClockOutcome(Stopped, Add(log, s).state, Some(s))
  }

  /** A whole session at the clock: clock in, `n` seconds, clock out. It
      records `n / 3600` hours, keeps the log's total equal to its sum, and
      leaves the display at `00:00:00`; a second Clock Out records nothing. */
  lemma ClockSession(log: LogState, id: string, day: int, start: int, now: int, n: nat)
    requires Consistent(log)
    ensures var out := ClockOut(Ticks(ClockIn(Stopped, start), n), log, id, day, now);
      && out.recorded.Some?
      && out.recorded.value.duration * 3600.0 == n as real
      && Consistent(out.log)
      && |out.log.sessions| == |log.sessions| + 1
      && FormatTime(out.clock.Elapsed()) == "00:00:00"
      && ClockOut(out.clock, out.log, id, day, now) == ClockOutcome(Stopped, out.log, None)
  {
    RunCounts(start, n, start);
    var out := ClockOut(Running(start, n), log, id, day, now);
    AddConsistent(log, out.recorded.value);
    assert out.clock == Stopped;
    FormatZero();
  }

  /** Sixty seconds are one minute: `00:01:00`. */
  lemma FormatOneMinute()
    ensures FormatTime(60) == "00:01:00"
  {
    assert SplitSeconds(60) == ClockFields(0, 1, 0);
    assert NatToString(0) == "0" && NatToString(1) == "1";
    assert Field(0) == "00" && Field(1) == "01";
  }

  /** A stopped clock shows `00:00:00`. */
  lemma FormatZero()
    ensures FormatTime(0) == "00:00:00"
  {
    assert NatToString(0) == "0";
    assert Field(0) == "00";
    assert SplitSeconds(0) == ClockFields(0, 0, 0);
  }

  datatype ManualError = EndNotAfterStart

  /** The session a manual entry describes. The end must come strictly
      after the start; the duration is the difference in milliseconds
      converted to hours; an empty description becomes "Manual Entry". */
  function ManualEntry(id: string, date: int, start: int, end: int, description: string): (r: Result<Session, ManualError>)
    ensures r.Err? <==> end <= start
    ensures r.Ok? ==>
      && r.value.duration > 0.0
      && r.value.duration * 3600000.0 == (end - start) as real
      && r.value.id == id && r.value.date == date
      && r.value.startTime == start && r.value.endTime == end
      && (description != "" ==> r.value.description == description)
      && (description == "" ==> r.value.description == "Manual Entry")
  {
    if end <= start then Err(EndNotAfterStart)
    else
      var durationMs := end - start;
      var durationHours := durationMs as real / (1000.0 * 60.0 * 60.0);
      Ok(Session(id, date, start, end, durationHours,
        if description == "" then "Manual Entry" else description))
  }

  /** The log after pressing Save on the manual entry form, and the entry's fate. */
  datatype ManualOutcome = ManualOutcome(log: LogState, entry: Result<Session, ManualError>)

  /** `saveManualEntry`: a rejected entry leaves the log alone; an accepted
      one is appended. */
  function SaveManualEntry(log: LogState, id: string, date: int, start: int, end: int, description: string): (r: ManualOutcome)
    ensures r.entry == ManualEntry(id, date, start, end, description)
    ensures r.entry.Err? <==> end <= start
    ensures r.entry.Err? ==> r.log == log
    ensures r.entry.Ok? ==> r.log == Add(log, r.entry.value).state
  {
    match ManualEntry(id, date, start, end, description)
    case Err(e) => ManualOutcome(log, Err(e))
    case Ok(s) => ManualOutcome(Add(log, s).state, Ok(s))
  }

  /** Saving a manual entry keeps the log's total equal to its sum, and an
      accepted entry grows the total by a positive amount. */
  lemma SaveManualEntryConsistent(log: LogState, id: string, date: int, start: int, end: int, description: string)
    requires Consistent(log)
    ensures Consistent(SaveManualEntry(log, id, date, start, end, description).log)
    ensures start < end ==>
      SaveManualEntry(log, id, date, start, end, description).log.total.h > log.total.h
  {
    var r := SaveManualEntry(log, id, date, start, end, description);
    if r.entry.Ok? {
      AddConsistent(log, r.entry.value);
    }
  }
}

=== FILE: users.dfy ===
/** The signed-in user record the screens read. */
module Users {
  import opened Wrappers

  /** A stored user. A field that is absent from the stored record is the
      empty string (or `NaN` for `age`): both are falsy, which is all the
      screens ever ask of a missing field. `ageGroup` is the raw key stored
      at sign-up (`kids`, `teens`, `young_adults` or `adults`). */
  datatype User = User(
    id: string,
    name: string,
    email: string,
    phone: string,
    age: JsInt,
    ageGroup: string)
}

=== FILE: wrappers.dfy ===
/** Failure-carrying values shared by the rest of the model. */
module Wrappers {

  /** A value that may be absent (JavaScript `null` / `undefined`). */
  datatype Option<+T> = None | Some(value: T) {

    /** The wrapped value, or `default` when absent. */
    function GetOr(default: T): T {
      match this
      case Some(v) => v
      case None => default
    }
  }

  /** The outcome of an operation that can fail with an error value. */
  datatype Result<+R, +E> = Ok(value: R) | Err(error: E)

  /** A JavaScript integer-valued number, or `NaN` (what `parseInt` returns
      when no digit follows the optional sign). Every comparison with `NaN`
      is false and `NaN` is falsy. */
  datatype JsInt = Int(n: int) | NaN {

    /** JavaScript truthiness: `0` and `NaN` are falsy. */
    predicate Truthy() {
      Int? && n != 0
    }
  }
}
